=== FILE: README.md ===
# SoDaIPC buffer pool, modelled in Dafny

SoDaIPC recycles `std::vector<T>` storage through a size-keyed pool.

- `BufferPool<T>` keeps, for every requested element count `n`, a deque of spare vectors of `n` elements.
- `getFromPool(n)` creates the bucket when needed. When the bucket is empty, it refills it with `fillPool(n)` up to `min_pool_size` fresh vectors. It then pops the FRONT vector and wraps it in a `PoolAllocatedBuffer`.
- When the last owner of that handle drops it, the destructor calls `returnToPool(vec, vec->size())`. This pushes the vector back at the FRONT of the bucket for its current length, so reuse is last in, first out. When no such bucket exists, it throws.
- `Buffer<T>` is the handle itself: it either allocates a fresh vector or aliases an existing one, and exposes it by reference through `getVec()`.
- The experimental allocator `ExpAlloc<T>` (test/allocator_exp.cxx) is the same idea with a FIFO `std::queue` per size. It is modelled as a contrast.

## How the model is built

Everything is an immutable value, and every operation is a pure state-transition function.

- `buffer.dfy`, module `Buffers`:
  - A vector is an identity (`VecId`) into a `Heap` that maps identities to contents. `Heap.init` stands for `T()`.
  - A `Buffer` holds only the identity, so every read through `getVec()` sees the vector itself.
- `buffer_pool.dfy`, module `BufferPool`:
  - `Pool<T>` holds `min_pool_size`, the bucket map and the heap.
  - It also holds two bookkeeping sets that the C++ program has only implicitly: `made`, every vector the pool manufactured or wrapped, and `lent`, the vectors held by live handles.
  - The operations are `Create`, `FillPool`, `GetFromPool`, `ReturnToPool` and `Release`, plus writes and resizes through a handle.
  - `Inv` is the pool invariant. Every vector in bucket `k` has `k` elements. Buckets hold no duplicates. Every manufactured vector is free or lent, never both.
- `buffer_pool_props.dfy`, module `BufferPoolProps`:
  - every operation keeps `Inv` when the handle involved is still live (`ReleaseInv`, `ResizeLentInv`). `ReturnToPool` on its own does not keep it, since the returned vector is still in `lent`; it is reached only through `Release`. A resize through a reference to a vector already returned can break it: that is the misuse include/Buffer.hxx:93-100 warns about;
  - exactly-once residency and conservation per length;
  - last-in, first-out reuse;
  - contents survive a return;
  - the failing-return path.
- `pool_scenarios.dfy`, module `PoolScenarios`: two end-to-end runs.
  - The loop of test/BufferTest.cxx: eight get–write–drop cycles.
  - A run that keeps every handle, `HoldWithoutRelease`. For `min_pool_size` 5 and eight requests this gives two refills, ten vectors, eight lent and two idle (`EightHeld`).
- `exp_alloc.dfy`, module `ExpAllocModel`: the bookkeeping of `ExpAlloc`. Addresses are abstract numbers. The block `new` returns is a parameter `base`, and entry `b` of a refill of size `s` is `base + b * s`.

### Behaviour of the code worth knowing

- The pool has no name and one exception type, `BufferPool::Exception`, thrown only by `returnToPool`. Its message names neither the pool nor the length.
- `min_pool_size` 0 makes `getFromPool` call `front()` on an empty deque, which is undefined behaviour. The model therefore makes `min_pool_size >= 1` a precondition of `GetFromPool`.
- There is no lock: every operation is modelled sequentially.
- `getVec()` returns a non-const reference, so a caller can resize the vector. `Release` keys the return by the vector's current length, as the destructor does. A resize can therefore move a vector to another bucket, or reach the throwing path (`ResizeToUnrequestedLengthFails`).
- test/BufferTest.cxx drops each handle at the end of its iteration, so one vector is reused eight times (`BufferTestLoop`). `EightHeld` instead keeps eight handles alive.

## Model

| member | source | states |
|---|---|---|
| Buffers.Alloc | include/Buffer.hxx:108 | `new std::vector<T>(len)` gets an identity no existing vector has, holds `len` copies of `T()`, and leaves every other vector unchanged |
| Buffers.NewBuffer | include/Buffer.hxx:107-109 | `Buffer(len)` views a freshly allocated vector of exactly `len` value-initialised elements, and no existing vector changes |
| Buffers.SetElem | include/Buffer.hxx:111 | a write through the `getVec()` reference changes only element `i` of the viewed vector and never its length |
| Buffers.ResizeVec | include/Buffer.hxx:111 | `getVec().resize(len)` sets the length to `len`, keeps the common prefix and value-initialises new elements; other vectors are untouched |
| Buffers.AliasBuffer | include/Buffer.hxx:117-119 | the aliasing constructor stores exactly the vector it is given; nothing is allocated or copied |
| Buffers.GetVec | include/Buffer.hxx:111 | `getVec()` yields the stored vector's current contents, not a copy; a handle is only its vector's identity, so the model does not tell apart two handles on one vector |
| Buffers.AliasSharesWrites | include/Buffer.hxx:117-119 | a handle built by the aliasing constructor on a handle's vector equals that handle as a value, so a write through one is read back through the other with the length kept |
| Buffers.WritesCommute | include/Buffer.hxx:111 | writes to different elements of one vector commute |
| Buffers.WritesKeepLength | include/Buffer.hxx:107-119 | no sequence of element writes changes the vector's length or the set of vectors |
| BufferPool.Create | include/BufferPool.hxx:86-88 | a new pool has no buckets and has manufactured and lent nothing |
| BufferPool.FillStep | include/BufferPool.hxx:152 | one turn of the refill loop pushes the next fresh identity at the back of bucket `n` and keeps the old entries, in order, in front of it |
| BufferPool.FillStepSpec | include/BufferPool.hxx:152 | the vector that turn pushes is new, has `n` value-initialised elements and is recorded as manufactured; no other bucket, no existing vector and nothing lent changes |
| BufferPool.TopUp | include/BufferPool.hxx:151-153 | the refill loop ends with bucket `n` holding at least `min_pool_size` entries, its old entries still first and in order |
| BufferPool.ToppedUpAfterStep | include/BufferPool.hxx:151-153 | one loop turn followed by `k` more appends `k + 1` consecutive fresh vectors |
| BufferPool.TopUpSpec | include/BufferPool.hxx:151-153 | the refill loop appends exactly the shortfall below `min_pool_size` of fresh, consecutively numbered vectors of length `n` at the back of bucket `n`, and changes nothing else |
| BufferPool.FillPool | include/BufferPool.hxx:145-154 | `fillPool(n)` creates bucket `n` if absent and leaves it with at least `min_pool_size` entries: the old ones followed by the fresh ones. A bucket already that full is left exactly as it was |
| BufferPool.FillPoolSpec | include/BufferPool.hxx:145-154 | `fillPool(n)` leaves other buckets and existing vectors unchanged; the vectors it adds are new, have `n` value-initialised elements and are recorded as manufactured |
| BufferPool.TakeFront | include/BufferPool.hxx:126-131 | the handed-out vector is the bucket's front and the bucket becomes its tail; no other bucket, no vector and nothing manufactured changes, and only the handed-out vector joins the lent set |
| BufferPool.GetFromPool | include/BufferPool.hxx:121-139 | after `getFromPool(n)` bucket `n` exists, no bucket is removed or otherwise changed, and the vector handed out is added to the lent set |
| BufferPool.GetFromNonEmpty | include/BufferPool.hxx:122-131 | on a non-empty bucket the front vector is handed out, the bucket shrinks to its tail, and nothing is manufactured |
| BufferPool.GetFromEmptyTakesFromFill | include/BufferPool.hxx:121-139 | on an absent or empty bucket, `getFromPool` pops the front of a `fillPool(n)` that holds exactly `min_pool_size` fresh vectors |
| BufferPool.GetFromEmpty | include/BufferPool.hxx:121-154 | on an absent or empty bucket exactly `min_pool_size` fresh vectors of length `n` are made; the first is handed out and the other `min_pool_size - 1` stay in the bucket |
| BufferPool.ReturnToPool | include/BufferPool.hxx:156-165 | `returnToPool` succeeds exactly when bucket `n` exists, and then pushes the vector at the front and changes nothing else (other buckets, heap, `min_pool_size`, bookkeeping); otherwise it reports the error and returns no pool |
| BufferPool.Release | include/BufferPool.hxx:112-115 | dropping a handle returns its vector keyed by its current length, succeeds exactly when that bucket exists, pushes it at that bucket's front, and removes the vector from the lent set; other buckets, the heap and `min_pool_size` are unchanged |
| BufferPool.WriteThrough | include/Buffer.hxx:111 | writing through a pool-issued handle sets element `i` of its vector to `x`; every other element, every other vector, every length, the buckets, `min_pool_size` and the bookkeeping are unchanged |
| BufferPool.ResizeThrough | include/Buffer.hxx:111 | resizing through a pool-issued handle gives that vector the requested length, keeps its common prefix and value-initialises new elements; other vectors, the buckets, `min_pool_size` and the bookkeeping are unchanged |
| BufferPool.NewPoolBuffer | include/BufferPool.hxx:100-104 | the unused `PoolAllocatedBuffer(bp, n)` constructor makes a fresh vector of `n` elements outside every bucket and records it as lent |
| BufferPoolProps.CreateInv | include/BufferPool.hxx:86-88 | a new pool satisfies the invariant |
| BufferPoolProps.FillPoolInv | include/BufferPool.hxx:145-154 | `fillPool` keeps the invariant |
| BufferPoolProps.GetFromPoolInv | include/BufferPool.hxx:121-139 | `getFromPool(n)` keeps the invariant and hands out a previously free vector of exactly `n` elements, which is now lent |
| BufferPoolProps.TakeFrontInv | include/BufferPool.hxx:126-131 | popping the front of a non-empty bucket keeps the invariant |
| BufferPoolProps.ReleaseInv | include/BufferPool.hxx:156-165 | releasing a live handle succeeds exactly when a bucket exists for its vector's length, keeps the invariant, and leaves the vector free |
| BufferPoolProps.WriteThroughInv | include/Buffer.hxx:111 | a write through any handle, even one already dropped, keeps the invariant |
| BufferPoolProps.ResizeLentInv | include/Buffer.hxx:111 | resizing a vector whose handle is still live keeps the invariant |
| BufferPoolProps.NewPoolBufferInv | include/BufferPool.hxx:100-104 | the unused size constructor keeps the invariant |
| BufferPoolProps.ExactlyOnce | include/BufferPool.hxx:121-165 | a manufactured vector is lent if and only if it is not free, and a free one sits at exactly one position of exactly one bucket |
| BufferPoolProps.Conservation | include/BufferPool.hxx:121-165 | for each length, the manufactured vectors that NOW have that length are exactly the free ones in its bucket plus the lent ones, in disjoint parts; a resize through `getVec()` changes which length a vector counts under |
| BufferPoolProps.AllReturned | include/BufferPool.hxx:121-165 | once no handle is live, each bucket holds exactly the manufactured vectors that now have its length, each once; a vector resized before its release sits in the bucket of its new length |
| BufferPoolProps.ReturnThenGet | include/BufferPool.hxx:156-160 | after a return to bucket `n`, the next `getFromPool(n)` hands out that very vector and the buckets are as before the return (last in, first out) |
| BufferPoolProps.TakeFrontThenRelease | include/BufferPool.hxx:126-160 | popping a bucket's front and releasing it unresized restores the pool exactly |
| BufferPoolProps.GetThenReleaseRestores | include/BufferPool.hxx:121-165 | on a non-empty bucket, get followed by release leaves the pool exactly as it was |
| BufferPoolProps.GetThenReleaseFills | include/BufferPool.hxx:121-165 | on an absent or empty bucket, get followed by release leaves the pool exactly as one `fillPool(n)` would |
| BufferPoolProps.UseOnce | include/BufferPool.hxx:112-165 | get, write and release keep the invariant and leave the pool as the refill check left it (buckets, bookkeeping, `min_pool_size`, `T()` and every vector), except the element written |
| BufferPoolProps.ReuseSeesOldContents | include/Buffer.hxx:93-100 | returned storage is not cleared: the next holder of the same vector reads what the previous holder wrote |
| BufferPoolProps.ReleaseAfterGetSucceeds | include/BufferPool.hxx:156-160 | a handle whose vector was not resized is always taken back |
| BufferPoolProps.ResizeToUnrequestedLengthFails | include/BufferPool.hxx:156-164 | after a resize to a length never requested, releasing the handle reports the error and leaves that length without a bucket |
| PoolScenarios.TestStart | test/BufferTest.cxx:16 | `BufferPool<int> pool(5)` is the state before the test loop |
| PoolScenarios.FirstFill | test/BufferTest.cxx:16-20 | the first request for length 3 fills bucket 3 with vectors 0 to 4 |
| PoolScenarios.FirstTestIteration | test/BufferTest.cxx:19-23 | the first iteration hands out vector 0 and takes it back at the front |
| PoolScenarios.LaterTestIteration | test/BufferTest.cxx:19-23 | every later iteration hands out vector 0 again, with nothing manufactured |
| PoolScenarios.TestIteration | test/BufferTest.cxx:19-23 | one iteration maps the state after `i` iterations to the state after `i + 1` |
| PoolScenarios.TestStep | test/BufferTest.cxx:19-23 | one get, write and drop of the test loop hands out vector 0 and moves the state from `i` to `i + 1` iterations |
| PoolScenarios.BufferTestLoop | test/BufferTest.cxx:16-23 | the test loop makes exactly 5 vectors, hands out vector 0 every time, ends with bucket 3 holding all 5 and vector 0 holding the last value written |
| PoolScenarios.HoldStep | include/BufferPool.hxx:121-154 | one more request without release hands out the next vector in manufacture order, refilling exactly when the bucket is observed empty |
| PoolScenarios.Request | include/BufferPool.hxx:121-154 | one `getFromPool(n)` of a run that releases nothing hands out vector `i`, and the refill count grows exactly when the bucket was empty |
| PoolScenarios.HeldAfterMeans | include/BufferPool.hxx:121-154 | after `count` requests without release, the first `count` vectors are lent, every manufactured vector has length `n`, and the number made is the least multiple of `min_pool_size` that is at least `count` |
| PoolScenarios.HoldWithoutRelease | include/BufferPool.hxx:121-154 | `count` requests without release hand out vectors 0 to `count - 1` in order, with the pool as `HeldAfter` describes |
| PoolScenarios.EightHeld | include/BufferPool.hxx:121-154 | with `min_pool_size` 5, eight requests for length 3 without release give two refills, ten vectors made, eight lent and `[8, 9]` idle in the bucket |
| ExpAllocModel.Create | test/allocator_exp.cxx:12-14 | a new allocator has no queues |
| ExpAllocModel.InitBufferPool | test/allocator_exp.cxx:46-53 | `initBufferPool(s, num)` changes only queue `s` and adds no queue |
| ExpAllocModel.PushStrided | test/allocator_exp.cxx:49-52 | the loop only appends: the queue keeps its old entries first and grows by exactly the number of iterations |
| ExpAllocModel.PushStridedAppends | test/allocator_exp.cxx:49-52 | the loop appends `base, base + s, base + 2s, …` at the back, in order |
| ExpAllocModel.InitBufferPoolSpec | test/allocator_exp.cxx:46-53 | `initBufferPool(s, num)` appends exactly `max(num, 0)` entries at offsets `0, s, 2s, …` from one base after the queued ones |
| ExpAllocModel.StridedDistinct | test/allocator_exp.cxx:48-52 | for `s > 0` the entries of one refill strictly increase, so they are pairwise distinct |
| ExpAllocModel.Allocate | test/allocator_exp.cxx:21-37 | `allocate(n)` installs queue `n` if it is missing and changes no other queue |
| ExpAllocModel.Deallocate | test/allocator_exp.cxx:38-44 | `deallocate(p, n)` appends `p` at the back of the existing queue `n` and changes no other queue |
| ExpAllocModel.AllocateFromEmpty | test/allocator_exp.cxx:21-53 | on an absent or empty queue, five entries of one block are queued, the first is returned and the next four remain |
| ExpAllocModel.AllocateFromNonEmpty | test/allocator_exp.cxx:29-33 | on a non-empty queue the front, the oldest entry, is returned, the queue shrinks to its tail, and nothing is refilled |
| ExpAllocModel.AllocateManyDrains | test/allocator_exp.cxx:21-37 | `k` allocations from a queue holding at least `k` entries return its first `k` entries in order and leave the rest |
| ExpAllocModel.DeallocateIsFifo | test/allocator_exp.cxx:33-42 | an address given back to a queue of `k` entries comes out again only after those `k` (first in, first out) |
| ExpAllocModel.AllocateThenDeallocateRotates | test/allocator_exp.cxx:33-42 | allocate then deallocate on a non-empty queue moves its front to the back |
| ExpAllocModel.RotationChangesOrder | test/allocator_exp.cxx:33-42 | that rotation does not restore the queue when its first two entries differ, unlike the last-in, first-out pool |
| ExpAllocModel.Equal | test/allocator_exp.cxx:58-60 | any two allocators compare equal |
| ExpAllocModel.NotEqual | test/allocator_exp.cxx:63-66 | no two allocators compare unequal |
| ExpAllocModel.EqualityIgnoresState | test/allocator_exp.cxx:58-66 | two allocators compare equal even when only one of them has a queue for some size |

## Left out

- `include/MailBox.hxx` and its test: they do not compile against the headers.
- All `std::cerr` logging.
- `std::shared_ptr` reference counting and destructor timing are replaced by an explicit `Release` of the one handle. Copies of a handle are not modelled.
- A handle's `from_pool` pointer: the model has one pool at a time, and `Release` returns the vector to whichever pool it is applied to. Returning a handle to a pool that did not issue it is not ruled out by the types.
- Release: a throw from `~PoolAllocatedBuffer` would call `std::terminate`, because destructors are `noexcept`. The model reports it as an `Err` with no resulting pool instead.
- GetFromPool: `min_pool_size == 0` is excluded by a precondition. In the code it reaches `front()` on an empty deque, which is undefined behaviour, not an error value.
- Raw memory is not modelled: allocation failure, leaks (`Buffer` has no destructor), and destroying a pool while handles are live.
- ExpAllocModel.Deallocate: requires queue `n` to exist. For a size that never had a queue, `buffer_pool[n]` inserts a null pointer and `push` dereferences it, which is undefined behaviour. This is reachable by giving an address back to a different allocator (for example a rebound copy, which starts with no queues yet compares equal).
- ExpAllocModel.InitBufferPool: the block `new` returns is the parameter `base`. The one-`char` allocation `new char(s * num)` is not modelled, nor is the overlap of entries it causes, nor byte-versus-element sizing; entries are abstract addresses.
- Concurrency: the code has no lock, so everything is sequential and no thread-safety claim is made.
- The narrowing of `size_t` sizes to `int` map keys (include/BufferPool.hxx:142, test/allocator_exp.cxx:55): sizes are unbounded `nat`.
- The benchmark driver of test/allocator_exp.cxx (`main`, the timing and summing helpers, `showProblem`) and the rebinding copy constructor of `ExpAlloc`, which copies no queue.
- `Buffer` handles that are not pool-issued are modelled only as handles on heap vectors. Their release frees nothing.
- PoolScenarios.Batches stands for `fills * m`, counted one refill at a time, so that no proof needs nonlinear arithmetic.

=== FILE: buffer.dfy ===
/**
 * Model of include/Buffer.hxx: the heap of std::vector<T> objects the program
 * allocates, and the Buffer<T> handle that views exactly one of them.
 *
 * A vector is named by its identity (the pointer value `vec_p` holds); its
 * contents live in a `Heap`. A handle stores only the identity, so every read
 * through `getVec()` sees the vector itself, never a copy.
 */
module Buffers {

  /** Identity of one heap-allocated std::vector<T>. */
  type VecId = nat

  /** Every vector allocated so far, with its current contents. `next` is the
      identity the next allocation receives; `init` is T(), the value of a
      value-initialised element. */
  datatype Heap<T> = Heap(vecs: map<VecId, seq<T>>, next: VecId, init: T)

  /** No allocated vector has an identity at or above `next`, so allocation is fresh. */
  ghost predicate Valid<T>(h: Heap<T>) {
    forall id :: id in h.vecs ==> id < h.next
  }

  function EmptyHeap<T>(init: T): (h: Heap<T>)
    ensures Valid(h) && h.vecs == map[] && h.init == init
  {
    Heap(map[], 0, init)
  }

  /** The contents of `std::vector<T>(len)`: `len` copies of `x`. */
  function Filled<T>(len: nat, x: T): (s: seq<T>)
    ensures |s| == len
    ensures forall i :: 0 <= i < len ==> s[i] == x
  {
    seq(len, _ => x)
  }

  /** `new std::vector<T>(len)`: a new vector of `len` value-initialised
      elements at identity `next`. */
  function Alloc<T>(h: Heap<T>, len: nat): (r: (Heap<T>, VecId))
    ensures r.1 == h.next && r.0.next == h.next + 1 && r.0.init == h.init
    ensures r.1 in r.0.vecs && r.0.vecs[r.1] == Filled(len, h.init)
    ensures r.0.vecs.Keys == h.vecs.Keys + {r.1}
    ensures forall id :: id in h.vecs && id != r.1 ==> r.0.vecs[id] == h.vecs[id]
    ensures Valid(h) ==> r.1 !in h.vecs && Valid(r.0)
  {
    (h.(vecs := h.vecs[h.next := Filled(len, h.init)], next := h.next + 1), h.next)
  }

  /** A Buffer<T>: the one vector it views (`vec_p`). */
  datatype Buffer = Buffer(vec: VecId)

  /** `Buffer(len)`: a handle on a freshly allocated vector of exactly `len`
      value-initialised elements; no existing vector is touched. */
  function NewBuffer<T>(h: Heap<T>, len: nat): (r: (Heap<T>, Buffer))
    ensures r.1.vec in r.0.vecs
    ensures |r.0.vecs[r.1.vec]| == len
    ensures forall i :: 0 <= i < len ==> r.0.vecs[r.1.vec][i] == h.init
    ensures Valid(h) ==> r.1.vec !in h.vecs && Valid(r.0)
    ensures forall id :: id in h.vecs && id < h.next ==> id in r.0.vecs && r.0.vecs[id] == h.vecs[id]
  {
    var (h', id) := Alloc(h, len);
    (h', Buffer(id))
  }

  /** The protected `Buffer(vptr)` constructor: a handle that views the given
      vector itself; no vector is allocated or copied. */
  function AliasBuffer(vptr: VecId): (b: Buffer)
    ensures b.vec == vptr
  {
    Buffer(vptr)
  }

  /** `getVec()`: the vector the handle views, the stored one itself and
      not a copy. A handle is nothing but its vector's identity, so the model
      does not tell apart two handles on one vector: they are the same
      value and read the same contents. */
  function GetVec<T>(h: Heap<T>, b: Buffer): (v: seq<T>)
    requires b.vec in h.vecs
    ensures v == h.vecs[b.vec]
  {
    h.vecs[b.vec]
  }

  /** `getVec()[i] = x`: a write through the reference `getVec()` returns.
      Only element `i` of the viewed vector changes; its length does not. */
  function SetElem<T>(h: Heap<T>, b: Buffer, i: nat, x: T): (r: Heap<T>)
    requires b.vec in h.vecs && i < |h.vecs[b.vec]|
    ensures r.vecs.Keys == h.vecs.Keys && r.next == h.next && r.init == h.init
    ensures |GetVec(r, b)| == |GetVec(h, b)|
    ensures GetVec(r, b)[i] == x
    ensures forall j :: 0 <= j < |GetVec(h, b)| && j != i ==> GetVec(r, b)[j] == GetVec(h, b)[j]
    ensures forall id :: id in h.vecs && id != b.vec ==> r.vecs[id] == h.vecs[id]
  {
    h.(vecs := h.vecs[b.vec := h.vecs[b.vec][i := x]])
  }

  /** `getVec().resize(len)`: the only way a caller changes a vector's length.
      The first `min(len, old length)` elements survive and any new ones are
      value-initialised. */
  function ResizeVec<T>(h: Heap<T>, b: Buffer, len: nat): (r: Heap<T>)
    requires b.vec in h.vecs
    ensures r.vecs.Keys == h.vecs.Keys && r.next == h.next && r.init == h.init
    ensures |GetVec(r, b)| == len
    ensures forall j :: 0 <= j < len && j < |GetVec(h, b)| ==> GetVec(r, b)[j] == GetVec(h, b)[j]
    ensures forall j :: |GetVec(h, b)| <= j < len ==> GetVec(r, b)[j] == h.init
    ensures forall id :: id in h.vecs && id != b.vec ==> r.vecs[id] == h.vecs[id]
  {
    var v := h.vecs[b.vec];
    var v' := if len <= |v| then v[..len] else v + Filled(len - |v|, h.init);
    h.(vecs := h.vecs[b.vec := v'])
  }

  /** Two handles built on the same vector (the aliasing constructor) share
      storage: a write through one is read back through the other. Since a
      handle is its vector's identity, the alias equals the original handle
      as a value. */
  lemma AliasSharesWrites<T>(h: Heap<T>, b: Buffer, i: nat, x: T)
    requires b.vec in h.vecs && i < |h.vecs[b.vec]|
    ensures var c := AliasBuffer(b.vec);
            var h' := SetElem(h, b, i, x);
            c == b && c.vec in h'.vecs && GetVec(h', c)[i] == x && |GetVec(h', c)| == |GetVec(h, c)|
  {
  }

  /** Two writes through `getVec()` to different elements commute. */
  lemma WritesCommute<T>(h: Heap<T>, b: Buffer, i: nat, j: nat, x: T, y: T)
    requires b.vec in h.vecs && i < |h.vecs[b.vec]| && j < |h.vecs[b.vec]| && i != j
    ensures SetElem(SetElem(h, b, i, x), b, j, y) == SetElem(SetElem(h, b, j, y), b, i, x)
  {
    var h1 := SetElem(SetElem(h, b, i, x), b, j, y);
    var h2 := SetElem(SetElem(h, b, j, y), b, i, x);
    assert h1.vecs[b.vec] == h2.vecs[b.vec];
    assert h1.vecs == h2.vecs;
  }

  /** A vector's length, and the set of vectors, stay the same under any
      sequence of in-range element writes. */
  lemma {:induction false} WritesKeepLength<T>(h: Heap<T>, b: Buffer, writes: seq<(nat, T)>)
    requires b.vec in h.vecs
    requires forall k :: 0 <= k < |writes| ==> writes[k].0 < |h.vecs[b.vec]|
    ensures var h' := ApplyWrites(h, b, writes);
            b.vec in h'.vecs && |h'.vecs[b.vec]| == |h.vecs[b.vec]| && h'.vecs.Keys == h.vecs.Keys
    decreases |writes|
  {
    if |writes| > 0 {
      var h1 := SetElem(h, b, writes[0].0, writes[0].1);
      WritesKeepLength(h1, b, writes[1..]);
    }
  }

  /** Applies `getVec()[i] = x` for each pair in order. */
  function ApplyWrites<T>(h: Heap<T>, b: Buffer, writes: seq<(nat, T)>): Heap<T>
    requires b.vec in h.vecs
    requires forall k :: 0 <= k < |writes| ==> writes[k].0 < |h.vecs[b.vec]|
    decreases |writes|
  {
    if |writes| == 0 then h
    else ApplyWrites(SetElem(h, b, writes[0].0, writes[0].1), b, writes[1..])
  }
}

=== FILE: buffer_pool.dfy ===
/**
 * Model of include/BufferPool.hxx: a map from element count to a deque of
 * spare vectors of that many elements, and the PoolAllocatedBuffer handle
 * that gives its vector back when its last owner drops it.
 *
 * The pool is an immutable value and every operation is a state transition
 * function. Besides the fields of the C++ class (`min_pool_size` and `pool`)
 * the state carries the heap the vectors live in and two bookkeeping sets
 * that the C++ program holds only implicitly: `made`, every vector the pool
 * manufactured or wrapped, and `lent`, the vectors held by live handles.
 */
module BufferPool {
  import opened Buffers

  /** BufferPool<T>::Exception, thrown by returnToPool when no bucket exists
      for the returned vector's length. The C++ message names no length;
      `len` is carried here only so that contracts can say which return
      failed. */
  datatype PoolError = CouldNotReturn(len: nat)

  datatype Result<R> = Ok(value: R) | Err(error: PoolError)

  /** A PoolAllocatedBuffer: a Buffer that views a pooled vector and returns
      it to the pool that issued it (`from_pool`) when released. The handle
      holds no pool reference here: `from_pool` is implicit in the pool that
      `Release` is applied to. */
  datatype PoolBuffer = PoolBuffer(buf: Buffer)

  datatype Pool<T> = Pool(
    minPoolSize: nat,
    buckets: map<nat, seq<VecId>>,
    heap: Heap<T>,
    made: set<VecId>,
    lent: set<VecId>)

  /** The ids `first, first + 1, …` in increasing order, `count` of them. */
  function IdsFrom(first: VecId, count: nat): (s: seq<VecId>)
    ensures |s| == count
    ensures forall i :: 0 <= i < count ==> s[i] == first + i
  {
    seq(count, i => first + i)
  }

  /** Dropping the first of a run of ids leaves the run one further on. */
  lemma IdsFromTail(first: VecId, count: nat)
    requires count > 0
    ensures IdsFrom(first, count)[1..] == IdsFrom(first + 1, count - 1)
  {
  }

  /** `s'` is `s` plus the ids `lo .. hi - 1`. */
  ghost predicate AddsRange(s: set<VecId>, s': set<VecId>, lo: VecId, hi: VecId) {
    forall id :: id in s' <==> id in s || lo <= id < hi
  }

  /** How many entries `fillPool` pushes onto a bucket holding `size`. */
  function Shortfall(size: nat, minPoolSize: nat): nat
  {
    if size < minPoolSize then minPoolSize - size else 0
  }

  /** The bucket for `n`, or an empty one if it does not exist yet. */
  function Bucket<T>(p: Pool<T>, n: nat): seq<VecId>
  {
    if n in p.buckets then p.buckets[n] else []
  }

  /** `h'` is `h` plus fresh vectors of `len` value-initialised elements at
      the ids `h.next .. h'.next - 1`; every older vector is unchanged. */
  ghost predicate Grew<T>(h: Heap<T>, h': Heap<T>, len: nat) {
    && h'.init == h.init
    && h.next <= h'.next
    && AddsRange(h.vecs.Keys, h'.vecs.Keys, h.next, h'.next)
    && (forall id :: id in h.vecs && id < h.next ==> h'.vecs[id] == h.vecs[id])
    && (forall id :: h.next <= id < h'.next ==> id in h'.vecs && h'.vecs[id] == Filled(len, h.init))
  }

  /** Allocating one vector of length `len` and then growing by more such
      vectors is one growth. */
  lemma GrewAfterAlloc<T>(h: Heap<T>, h2: Heap<T>, len: nat)
    requires Grew(Alloc(h, len).0, h2, len)
    ensures Grew(h, h2, len)
  {
    var h1 := Alloc(h, len).0;
    forall id | id in h.vecs && id < h.next
      ensures h2.vecs[id] == h.vecs[id]
    {
      assert id in h1.vecs && id < h1.next;
    }
    forall id | h.next <= id < h2.next
      ensures id in h2.vecs && h2.vecs[id] == Filled(len, h.init)
    {
      if id == h.next {
        assert id in h1.vecs && id < h1.next;
      }
    }
  }

  /** Every bucket other than `n` is present in `r` with the same contents. */
  ghost predicate OthersUnchanged<T>(p: Pool<T>, r: Pool<T>, n: nat) {
    forall k :: k in p.buckets && k != n ==> k in r.buckets && r.buckets[k] == p.buckets[k]
  }

  /** `BufferPool(min_pool_size)`: no buckets, nothing manufactured. */
  function Create<T>(minPoolSize: nat, init: T): (p: Pool<T>)
    ensures p.buckets == map[] && p.made == {} && p.lent == {}
    ensures p.minPoolSize == minPoolSize && p.heap.vecs == map[] && p.heap.next == 0
  {
    Pool(minPoolSize, map[], EmptyHeap(init), {}, {})
  }

  /** One turn of the `fillPool` loop: a fresh vector of length `n` is
      manufactured and pushed at the back of bucket `n`. */
  function FillStep<T>(p: Pool<T>, n: nat): (r: Pool<T>)
    requires n in p.buckets
    ensures r.minPoolSize == p.minPoolSize && n in r.buckets
    ensures r.buckets[n] == p.buckets[n] + [p.heap.next]
  {
    var (h, id) := Alloc(p.heap, n);
    p.(heap := h, buckets := p.buckets[n := p.buckets[n] + [id]], made := p.made + {id})
  }

  /** What else a turn of the refill loop does: the vector it pushes is
      fresh, has `n` value-initialised elements and is recorded as
      manufactured; no other bucket, no existing vector and nothing lent
      changes. */
  lemma FillStepSpec<T>(p: Pool<T>, n: nat)
    requires n in p.buckets
    ensures var r := FillStep(p, n);
            && r.lent == p.lent
            && r.buckets.Keys == p.buckets.Keys && OthersUnchanged(p, r, n)
            && r.heap.next == p.heap.next + 1 && Grew(p.heap, r.heap, n)
            && AddsRange(p.made, r.made, p.heap.next, r.heap.next)
  {
  }

  /** The loop of `fillPool`: push `new std::vector<T>(n)` at the back of
      bucket `n` while it holds fewer than `min_pool_size` entries. */
  function TopUp<T>(p: Pool<T>, n: nat): (r: Pool<T>)
    requires n in p.buckets
    decreases p.minPoolSize - |p.buckets[n]|
    ensures n in r.buckets && r.minPoolSize == p.minPoolSize
    ensures |r.buckets[n]| >= p.minPoolSize
    ensures p.buckets[n] <= r.buckets[n]
  {
    if |p.buckets[n]| >= p.minPoolSize then p
    else TopUp(FillStep(p, n), n)
  }

  /** `r` is `p` with `added` fresh vectors of length `n`, numbered from
      `p.heap.next`, pushed at the back of bucket `n` and nothing else
      changed. */
  ghost predicate ToppedUp<T>(p: Pool<T>, r: Pool<T>, n: nat, added: nat) {
    && n in p.buckets && n in r.buckets
    && r.minPoolSize == p.minPoolSize && r.lent == p.lent
    && r.buckets.Keys == p.buckets.Keys && OthersUnchanged(p, r, n)
    && r.buckets[n] == p.buckets[n] + IdsFrom(p.heap.next, added)
    && r.heap.next == p.heap.next + added
    && Grew(p.heap, r.heap, n)
    && AddsRange(p.made, r.made, p.heap.next, r.heap.next)
  }

  /** A turn of the loop followed by `added` more is `added + 1` turns. */
  lemma ToppedUpAfterStep<T>(p: Pool<T>, r: Pool<T>, n: nat, added: nat)
    requires n in p.buckets && ToppedUp(FillStep(p, n), r, n, added)
    ensures ToppedUp(p, r, n, added + 1)
  {
    var q := FillStep(p, n);
    FillStepSpec(p, n);
    assert [p.heap.next] + IdsFrom(q.heap.next, added) == IdsFrom(p.heap.next, added + 1);
    assert r.buckets[n] == p.buckets[n] + IdsFrom(p.heap.next, added + 1);
    GrewAfterAlloc(p.heap, r.heap, n);
    assert AddsRange(p.made, r.made, p.heap.next, r.heap.next);
  }

  /** The loop of `fillPool` appends exactly the shortfall of fresh vectors,
      numbered consecutively, at the back of bucket `n` and nowhere else. */
  lemma {:induction false} TopUpSpec<T>(p: Pool<T>, n: nat)
    requires n in p.buckets
    decreases p.minPoolSize - |p.buckets[n]|
    ensures ToppedUp(p, TopUp(p, n), n, Shortfall(|p.buckets[n]|, p.minPoolSize))
  {
    if |p.buckets[n]| < p.minPoolSize {
      var q := FillStep(p, n);
      TopUpSpec(q, n);
      ToppedUpAfterStep(p, TopUp(q, n), n, Shortfall(|q.buckets[n]|, q.minPoolSize));
    } else {
      assert IdsFrom(p.heap.next, 0) == [];
    }
  }

  /** `fillPool(n)`: creates bucket `n` if it is absent, then tops it up at
      the back with fresh vectors of length `n` until it holds
      `min_pool_size` entries. A bucket already that full is left alone,
      and no other bucket changes. */
  function FillPool<T>(p: Pool<T>, n: nat): (r: Pool<T>)
    ensures r.minPoolSize == p.minPoolSize && r.lent == p.lent
    ensures r.buckets.Keys == p.buckets.Keys + {n}
    ensures var added := Shortfall(|Bucket(p, n)|, p.minPoolSize);
            && r.buckets[n] == Bucket(p, n) + IdsFrom(p.heap.next, added)
            && r.heap.next == p.heap.next + added
    ensures |r.buckets[n]| >= p.minPoolSize
    ensures n in p.buckets && |p.buckets[n]| >= p.minPoolSize ==> r == p
  {
    var q := if n in p.buckets then p else p.(buckets := p.buckets[n := []]);
    TopUpSpec(q, n);
    TopUp(q, n)
  }

  /** What else `fillPool(n)` does: the vectors it adds are fresh, have
      `n` value-initialised elements and are recorded as manufactured; no
      other bucket and no existing vector changes. */
  lemma FillPoolSpec<T>(p: Pool<T>, n: nat)
    ensures var r := FillPool(p, n);
            && OthersUnchanged(p, r, n)
            && Grew(p.heap, r.heap, n)
            && AddsRange(p.made, r.made, p.heap.next, r.heap.next)
  {
    var q := if n in p.buckets then p else p.(buckets := p.buckets[n := []]);
    TopUpSpec(q, n);
  }

  /** The tail of `getFromPool` once bucket `n` is non-empty: pop the front
      vector and wrap it, through the aliasing constructor, in a handle. */
  function TakeFront<T>(p: Pool<T>, n: nat): (r: (Pool<T>, PoolBuffer))
    requires n in p.buckets && |p.buckets[n]| > 0
    ensures r.1.buf.vec == p.buckets[n][0]
    ensures r.0.buckets.Keys == p.buckets.Keys && OthersUnchanged(p, r.0, n)
    ensures r.0.buckets[n] == p.buckets[n][1..]
    ensures r.0.minPoolSize == p.minPoolSize && r.0.heap == p.heap && r.0.made == p.made
    ensures r.0.lent == p.lent + {r.1.buf.vec}
  {
    var vec := p.buckets[n][0];
    (p.(buckets := p.buckets[n := p.buckets[n][1..]], lent := p.lent + {vec}),
     PoolBuffer(AliasBuffer(vec)))
  }

  /** `getFromPool(n)`. `min_pool_size >= 1` is needed: with 0 the code
      calls `front()` on an empty deque. The bucket for `n` exists
      afterwards, no bucket is removed, and the vector handed out is
      recorded as lent. */
  function GetFromPool<T>(p: Pool<T>, n: nat): (r: (Pool<T>, PoolBuffer))
    requires p.minPoolSize >= 1
    decreases if n in p.buckets then 0 else 1
    ensures r.0.minPoolSize == p.minPoolSize
    ensures r.0.buckets.Keys == p.buckets.Keys + {n} && OthersUnchanged(p, r.0, n)
    ensures r.0.lent == p.lent + {r.1.buf.vec}
  {
    if n in p.buckets then
      var q := if |p.buckets[n]| <= 0 then FillPool(p, n) else p;
      FillPoolSpec(p, n);
      TakeFront(q, n)
    else
      var q := FillPool(p.(buckets := p.buckets[n := []]), n);
      FillPoolSpec(p.(buckets := p.buckets[n := []]), n);
      GetFromPool(q, n)
  }

  /** `getFromPool(n)` on a non-empty bucket removes and hands out exactly
      its front vector; nothing is manufactured. */
  lemma GetFromNonEmpty<T>(p: Pool<T>, n: nat)
    requires p.minPoolSize >= 1 && n in p.buckets && |p.buckets[n]| > 0
    ensures var (r, h) := GetFromPool(p, n);
            && h.buf.vec == p.buckets[n][0]
            && r.buckets[n] == p.buckets[n][1..]
            && r.heap == p.heap && r.made == p.made
  {
  }

  /** On an absent or empty bucket, `getFromPool(n)` pops from a
      `fillPool(n)`. */
  lemma GetFromEmptyTakesFromFill<T>(p: Pool<T>, n: nat)
    requires p.minPoolSize >= 1 && |Bucket(p, n)| == 0
    ensures var f := FillPool(p, n);
            && f.buckets[n] == IdsFrom(p.heap.next, p.minPoolSize)
            && GetFromPool(p, n) == TakeFront(f, n)
  {
    var f := FillPool(p, n);
    assert f.buckets[n] == [] + IdsFrom(p.heap.next, p.minPoolSize);
    if n !in p.buckets {
      assert FillPool(p.(buckets := p.buckets[n := []]), n) == f;
    }
  }

  /** `getFromPool(n)` on an absent or empty bucket manufactures exactly
      `min_pool_size` fresh vectors of length `n`, hands out the first and
      leaves the other `min_pool_size - 1` in the bucket. */
  lemma GetFromEmpty<T>(p: Pool<T>, n: nat)
    requires p.minPoolSize >= 1 && |Bucket(p, n)| == 0
    ensures var (r, h) := GetFromPool(p, n);
            && h.buf.vec == p.heap.next
            && r.buckets[n] == IdsFrom(p.heap.next + 1, p.minPoolSize - 1)
            && r.heap.next == p.heap.next + p.minPoolSize
            && Grew(p.heap, r.heap, n)
            && AddsRange(p.made, r.made, p.heap.next, r.heap.next)
  {
    GetFromEmptyTakesFromFill(p, n);
    FillPoolSpec(p, n);
    IdsFromTail(p.heap.next, p.minPoolSize);
    var f := FillPool(p, n);
    var r := GetFromPool(p, n).0;
    assert r.heap == f.heap && r.made == f.made;
  }

  /** `returnToPool(p, n)`: pushes `vec` at the FRONT of bucket `n`, so it
      is the next one handed out; throws, changing nothing, when there is no
      bucket for `n`. */
  function ReturnToPool<T>(p: Pool<T>, vec: VecId, n: nat): (r: Result<Pool<T>>)
    ensures r.Ok? <==> n in p.buckets
    ensures r.Err? ==> r.error == CouldNotReturn(n)
    ensures r.Ok? ==> && r.value.buckets.Keys == p.buckets.Keys
                      && r.value.buckets[n] == [vec] + p.buckets[n]
                      && OthersUnchanged(p, r.value, n)
                      && r.value.heap == p.heap && r.value.made == p.made && r.value.lent == p.lent
                      && r.value.minPoolSize == p.minPoolSize
  {
    if n in p.buckets then Ok(p.(buckets := p.buckets[n := [vec] + p.buckets[n]]))
    else Err(CouldNotReturn(n))
  }

  /** The last owner drops a pool-issued handle: `~PoolAllocatedBuffer`
      calls `returnToPool(vec_p, vec_p->size())`, keyed by the vector's
      CURRENT length, and the handle stops holding the vector. */
  function Release<T>(p: Pool<T>, h: PoolBuffer): (r: Result<Pool<T>>)
    requires h.buf.vec in p.heap.vecs
    ensures r.Ok? <==> |p.heap.vecs[h.buf.vec]| in p.buckets
    ensures r.Err? ==> r.error == CouldNotReturn(|p.heap.vecs[h.buf.vec]|)
    ensures r.Ok? ==> && var n := |p.heap.vecs[h.buf.vec]|;
                      && r.value.buckets.Keys == p.buckets.Keys
                      && r.value.buckets[n] == [h.buf.vec] + p.buckets[n]
                      && OthersUnchanged(p, r.value, n)
                      && r.value.heap == p.heap && r.value.made == p.made
                      && r.value.lent == p.lent - {h.buf.vec}
                      && r.value.minPoolSize == p.minPoolSize
  {
    match ReturnToPool(p, h.buf.vec, |p.heap.vecs[h.buf.vec]|)
    case Ok(q) => Ok(q.(lent := q.lent - {h.buf.vec}))
    case Err(e) => Err(e)
  }

  /** `getVec()[i] = x` on a pool-issued handle. */
  function WriteThrough<T>(p: Pool<T>, h: PoolBuffer, i: nat, x: T): (r: Pool<T>)
    requires h.buf.vec in p.heap.vecs && i < |p.heap.vecs[h.buf.vec]|
    ensures r.buckets == p.buckets && r.made == p.made && r.lent == p.lent
    ensures r.heap.vecs.Keys == p.heap.vecs.Keys && r.heap.next == p.heap.next
    ensures r.minPoolSize == p.minPoolSize && r.heap.init == p.heap.init
    ensures forall id :: id in p.heap.vecs ==> |r.heap.vecs[id]| == |p.heap.vecs[id]|
    ensures r.heap.vecs[h.buf.vec][i] == x
    ensures forall j :: 0 <= j < |p.heap.vecs[h.buf.vec]| && j != i ==>
              r.heap.vecs[h.buf.vec][j] == p.heap.vecs[h.buf.vec][j]
    ensures forall id :: id in p.heap.vecs && id != h.buf.vec ==> r.heap.vecs[id] == p.heap.vecs[id]
  {
    p.(heap := SetElem(p.heap, h.buf, i, x))
  }

  /** `getVec().resize(len)` on a pool-issued handle: the caller, not the
      pool, changes the vector's length. */
  function ResizeThrough<T>(p: Pool<T>, h: PoolBuffer, len: nat): (r: Pool<T>)
    requires h.buf.vec in p.heap.vecs
    ensures r.buckets == p.buckets && r.made == p.made && r.lent == p.lent
    ensures r.heap.vecs.Keys == p.heap.vecs.Keys && r.heap.next == p.heap.next
    ensures r.minPoolSize == p.minPoolSize && r.heap.init == p.heap.init
    ensures |r.heap.vecs[h.buf.vec]| == len
    ensures forall j :: 0 <= j < len && j < |p.heap.vecs[h.buf.vec]| ==>
              r.heap.vecs[h.buf.vec][j] == p.heap.vecs[h.buf.vec][j]
    ensures forall j :: |p.heap.vecs[h.buf.vec]| <= j < len ==> r.heap.vecs[h.buf.vec][j] == p.heap.init
    ensures forall id :: id in p.heap.vecs && id != h.buf.vec ==> r.heap.vecs[id] == p.heap.vecs[id]
  {
    p.(heap := ResizeVec(p.heap, h.buf, len))
  }

  /** The unused constructor `PoolAllocatedBuffer(bp, n)`: a handle on a
      freshly allocated vector of `n` elements that did not come out of a
      bucket, yet goes to the pool when released. */
  function NewPoolBuffer<T>(p: Pool<T>, n: nat): (r: (Pool<T>, PoolBuffer))
    ensures r.0.buckets == p.buckets && r.0.minPoolSize == p.minPoolSize
    ensures r.1.buf.vec == p.heap.next && r.0.heap.next == p.heap.next + 1
    ensures Grew(p.heap, r.0.heap, n)
    ensures r.0.made == p.made + {r.1.buf.vec} && r.0.lent == p.lent + {r.1.buf.vec}
  {
    var (h, b) := NewBuffer(p.heap, n);
    (p.(heap := h, made := p.made + {b.vec}, lent := p.lent + {b.vec}), PoolBuffer(b))
  }

  // ---------------------------------------------------------------------
  // The pool invariant

  ghost predicate Distinct(s: seq<VecId>) {
    forall i, j :: 0 <= i < j < |s| ==> s[i] != s[j]
  }

  /** Every vector stored in bucket `k` exists and has exactly `k` elements. */
  ghost predicate BucketsSized<T>(p: Pool<T>) {
    forall k, i :: k in p.buckets && 0 <= i < |p.buckets[k]| ==>
      p.buckets[k][i] in p.heap.vecs && |p.heap.vecs[p.buckets[k][i]]| == k
  }

  /** `id` sits in the bucket its own length selects. */
  ghost predicate IsFree<T>(p: Pool<T>, id: VecId) {
    && id in p.heap.vecs
    && |p.heap.vecs[id]| in p.buckets
    && id in p.buckets[|p.heap.vecs[id]|]
  }

  /** The pool invariant: buckets are sized by their key and hold no
      duplicate; every manufactured vector is free or lent, never both. */
  ghost predicate Inv<T>(p: Pool<T>) {
    && Valid(p.heap)
    && p.made <= p.heap.vecs.Keys
    && p.lent <= p.made
    && BucketsSized(p)
    && (forall k :: k in p.buckets ==> Distinct(p.buckets[k]))
    && (forall k, i :: k in p.buckets && 0 <= i < |p.buckets[k]| ==>
          p.buckets[k][i] in p.made && p.buckets[k][i] !in p.lent)
    && (forall id :: id in p.made && id !in p.lent ==> IsFree(p, id))
  }
}

=== FILE: buffer_pool_props.dfy ===
/**
 * Properties of the buffer pool model: the pool invariant holds from
 * construction on and is kept by every operation; vectors are reused last
 * in, first out; every manufactured vector is free or lent, never both and
 * never neither; and the two usage scenarios of the pool.
 */
module BufferPoolProps {
  import opened Buffers
  import opened BufferPool

  // ---------------------------------------------------------------------
  // The invariant is established and kept

  lemma CreateInv<T>(minPoolSize: nat, init: T)
    ensures Inv(Create(minPoolSize, init))
  {
  }

  /** `fillPool` keeps the invariant: the vectors it manufactures are fresh,
      have exactly `n` elements and go only into bucket `n`. */
  lemma FillPoolInv<T>(p: Pool<T>, n: nat)
    requires Inv(p)
    ensures Inv(FillPool(p, n))
  {
    var r := FillPool(p, n);
    FillPoolSpec(p, n);
    var before := Bucket(p, n);
    var added := Shortfall(|before|, p.minPoolSize);
    assert r.buckets[n] == before + IdsFrom(p.heap.next, added);
    forall id | id in p.heap.vecs
      ensures id < p.heap.next && id in r.heap.vecs && r.heap.vecs[id] == p.heap.vecs[id]
    {
    }
    assert Valid(r.heap);
    forall k, i | k in r.buckets && 0 <= i < |r.buckets[k]|
      ensures r.buckets[k][i] in r.heap.vecs && |r.heap.vecs[r.buckets[k][i]]| == k
      ensures r.buckets[k][i] in r.made && r.buckets[k][i] !in r.lent
    {
      if k == n && i >= |before| {
        assert r.buckets[k][i] == p.heap.next + (i - |before|);
      } else if k == n {
        assert r.buckets[k][i] == p.buckets[k][i];
      } else {
        assert r.buckets[k][i] == p.buckets[k][i];
      }
    }
    forall k | k in r.buckets
      ensures Distinct(r.buckets[k])
    {
      if k == n {
        forall i, j | 0 <= i < j < |r.buckets[k]|
          ensures r.buckets[k][i] != r.buckets[k][j]
        {
          if j < |before| {
            assert r.buckets[k][i] == p.buckets[k][i] && r.buckets[k][j] == p.buckets[k][j];
          } else if i < |before| {
            assert r.buckets[k][i] == p.buckets[k][i];
            assert p.buckets[k][i] < p.heap.next;
          }
        }
      }
    }
    forall id | id in r.made && id !in r.lent
      ensures IsFree(r, id)
    {
      if id < p.heap.next {
        assert id in p.made;
        var k := |p.heap.vecs[id]|;
        assert IsFree(p, id);
        var i :| 0 <= i < |p.buckets[k]| && p.buckets[k][i] == id;
        assert r.buckets[k][i] == id;
      } else {
        assert r.buckets[n][|before| + (id - p.heap.next)] == id;
      }
    }
  }

  /** `getFromPool(n)` keeps the invariant and hands out a vector that was
      free, has exactly `n` elements, and is now lent: an array obtained for
      one length is never handed out for another. */
  lemma GetFromPoolInv<T>(p: Pool<T>, n: nat)
    requires Inv(p) && p.minPoolSize >= 1
    ensures var (r, h) := GetFromPool(p, n);
            && Inv(r)
            && h.buf.vec !in p.lent && h.buf.vec in r.lent
            && h.buf.vec in r.heap.vecs && |r.heap.vecs[h.buf.vec]| == n
  {
    var q := if n in p.buckets && |p.buckets[n]| > 0 then p else FillPool(p, n);
    if !(n in p.buckets && |p.buckets[n]| > 0) {
      FillPoolInv(p, n);
      GetFromEmpty(p, n);
      if n !in p.buckets {
        assert FillPool(p.(buckets := p.buckets[n := []]), n) == q;
      }
    }
    assert Inv(q) && n in q.buckets && |q.buckets[n]| > 0;
    assert GetFromPool(p, n) == TakeFront(q, n);
    TakeFrontInv(q, n);
  }

  /** Popping the front of a non-empty bucket keeps the invariant. */
  lemma TakeFrontInv<T>(q: Pool<T>, n: nat)
    requires Inv(q) && n in q.buckets && |q.buckets[n]| > 0
    ensures var (r, h) := TakeFront(q, n);
            && Inv(r)
            && h.buf.vec !in q.lent
            && h.buf.vec in r.heap.vecs && |r.heap.vecs[h.buf.vec]| == n
  {
    var (r, h) := TakeFront(q, n);
    var vec := q.buckets[n][0];
    forall k, i | k in r.buckets && 0 <= i < |r.buckets[k]|
      ensures r.buckets[k][i] in r.made && r.buckets[k][i] !in r.lent
    {
      if k == n {
        assert r.buckets[k][i] == q.buckets[k][i + 1];
        assert q.buckets[k][0] != q.buckets[k][i + 1];
      }
    }
    forall id | id in r.made && id !in r.lent
      ensures IsFree(r, id)
    {
      assert IsFree(q, id);
      var k := |q.heap.vecs[id]|;
      var i :| 0 <= i < |q.buckets[k]| && q.buckets[k][i] == id;
      if k == n {
        assert i != 0;
        assert r.buckets[k][i - 1] == id;
      }
    }
    assert BucketsSized(r) by {
      forall k, i | k in r.buckets && 0 <= i < |r.buckets[k]|
        ensures r.buckets[k][i] in r.heap.vecs && |r.heap.vecs[r.buckets[k][i]]| == k
      {
        if k == n {
          assert r.buckets[k][i] == q.buckets[k][i + 1];
        }
      }
    }
  }

  /** Releasing a live handle keeps the invariant, and succeeds exactly when
      a bucket exists for the vector's current length; on success the
      vector is free again and sits at the front of that bucket. */
  lemma ReleaseInv<T>(p: Pool<T>, h: PoolBuffer)
    requires Inv(p) && h.buf.vec in p.lent
    ensures h.buf.vec in p.heap.vecs
    ensures var r := Release(p, h);
            && (r.Ok? <==> |p.heap.vecs[h.buf.vec]| in p.buckets)
            && (r.Ok? ==> Inv(r.value) && IsFree(r.value, h.buf.vec) && h.buf.vec !in r.value.lent)
  {
    var vec := h.buf.vec;
    var n := |p.heap.vecs[vec]|;
    var r := Release(p, h);
    if r.Ok? {
      var q := r.value;
      forall k, i | k in q.buckets && 0 <= i < |q.buckets[k]|
        ensures q.buckets[k][i] in q.heap.vecs && |q.heap.vecs[q.buckets[k][i]]| == k
        ensures q.buckets[k][i] in q.made && q.buckets[k][i] !in q.lent
      {
        if k == n && i > 0 {
          assert q.buckets[k][i] == p.buckets[k][i - 1];
        }
      }
      forall k | k in q.buckets
        ensures Distinct(q.buckets[k])
      {
        if k == n {
          forall i, j | 0 <= i < j < |q.buckets[k]|
            ensures q.buckets[k][i] != q.buckets[k][j]
          {
            assert q.buckets[k][j] == p.buckets[k][j - 1];
            if i > 0 {
              assert q.buckets[k][i] == p.buckets[k][i - 1];
            }
          }
        }
      }
      forall id | id in q.made && id !in q.lent
        ensures IsFree(q, id)
      {
        if id != vec {
          assert IsFree(p, id);
          var k := |p.heap.vecs[id]|;
          var i :| 0 <= i < |p.buckets[k]| && p.buckets[k][i] == id;
          if k == n {
            assert q.buckets[k][i + 1] == id;
          }
        } else {
          assert q.buckets[n][0] == vec;
        }
      }
    }
  }

  /** A write through any handle, even a stale one, keeps the invariant:
      it never changes a vector's length. */
  lemma WriteThroughInv<T>(p: Pool<T>, h: PoolBuffer, i: nat, x: T)
    requires Inv(p) && h.buf.vec in p.heap.vecs && i < |p.heap.vecs[h.buf.vec]|
    ensures Inv(WriteThrough(p, h, i, x))
  {
    var r := WriteThrough(p, h, i, x);
    forall id | id in r.made && id !in r.lent
      ensures IsFree(r, id)
    {
      assert IsFree(p, id);
    }
  }

  /** Resizing a vector its handle still holds keeps the invariant: the
      vector is in no bucket, and on release it is keyed by its new length. */
  lemma ResizeLentInv<T>(p: Pool<T>, h: PoolBuffer, len: nat)
    requires Inv(p) && h.buf.vec in p.lent
    ensures h.buf.vec in p.heap.vecs
    ensures Inv(ResizeThrough(p, h, len))
  {
    var r := ResizeThrough(p, h, len);
    forall k, i | k in r.buckets && 0 <= i < |r.buckets[k]|
      ensures r.buckets[k][i] in r.heap.vecs && |r.heap.vecs[r.buckets[k][i]]| == k
    {
      assert r.buckets[k][i] != h.buf.vec;
    }
    forall id | id in r.made && id !in r.lent
      ensures IsFree(r, id)
    {
      assert IsFree(p, id);
    }
  }

  /** The unused `PoolAllocatedBuffer(bp, n)` constructor keeps the
      invariant: its fresh vector counts as lent from the start. */
  lemma NewPoolBufferInv<T>(p: Pool<T>, n: nat)
    requires Inv(p)
    ensures var (r, h) := NewPoolBuffer(p, n);
            && Inv(r) && h.buf.vec !in p.made && h.buf.vec in r.lent
            && |r.heap.vecs[h.buf.vec]| == n
  {
    var (r, h) := NewPoolBuffer(p, n);
    forall k, i | k in r.buckets && 0 <= i < |r.buckets[k]|
      ensures r.buckets[k][i] in r.heap.vecs && |r.heap.vecs[r.buckets[k][i]]| == k
      ensures r.buckets[k][i] in r.made && r.buckets[k][i] !in r.lent
    {
      assert r.buckets[k][i] in p.heap.vecs;
    }
    forall id | id in r.made && id !in r.lent
      ensures IsFree(r, id)
    {
      assert IsFree(p, id);
    }
  }

  // ---------------------------------------------------------------------
  // Residency and conservation

  /** Exactly-once residency: a manufactured vector is either lent or free,
      never both and never neither, and when free it sits at exactly one
      position of exactly one bucket. */
  lemma ExactlyOnce<T>(p: Pool<T>, id: VecId)
    requires Inv(p) && id in p.made
    ensures id in p.lent <==> !IsFree(p, id)
    ensures forall k1, i1, k2, i2 ::
              && k1 in p.buckets && 0 <= i1 < |p.buckets[k1]| && p.buckets[k1][i1] == id
              && k2 in p.buckets && 0 <= i2 < |p.buckets[k2]| && p.buckets[k2][i2] == id
              ==> k1 == k2 && i1 == i2
  {
    if IsFree(p, id) {
      var k := |p.heap.vecs[id]|;
      var i :| 0 <= i < |p.buckets[k]| && p.buckets[k][i] == id;
      assert id !in p.lent;
    }
    forall k1, i1, k2, i2 |
        && k1 in p.buckets && 0 <= i1 < |p.buckets[k1]| && p.buckets[k1][i1] == id
        && k2 in p.buckets && 0 <= i2 < |p.buckets[k2]| && p.buckets[k2][i2] == id
      ensures k1 == k2 && i1 == i2
    {
      assert |p.heap.vecs[id]| == k1 && |p.heap.vecs[id]| == k2;
      assert Distinct(p.buckets[k1]);
    }
  }

  ghost function Elems(s: seq<VecId>): set<VecId>
  {
    set id | id in s
  }

  /** The vectors the pool manufactured that now have `k` elements. */
  ghost function MadeAt<T>(p: Pool<T>, k: nat): set<VecId>
  {
    set id | id in p.made && id in p.heap.vecs && |p.heap.vecs[id]| == k
  }

  /** The vectors lent out that now have `k` elements. */
  ghost function LentAt<T>(p: Pool<T>, k: nat): set<VecId>
  {
    set id | id in p.lent && id in p.heap.vecs && |p.heap.vecs[id]| == k
  }

  /** A sequence without duplicates has as many elements as its set. */
  lemma {:induction false} DistinctCard(s: seq<VecId>)
    requires Distinct(s)
    ensures |Elems(s)| == |s|
  {
    if |s| > 0 {
      assert Distinct(s[1..]);
      DistinctCard(s[1..]);
      assert Elems(s) == {s[0]} + Elems(s[1..]);
      assert s[0] !in Elems(s[1..]);
    }
  }

  /** Conservation per length: the vectors manufactured that have `k`
      elements are exactly those free in bucket `k` plus those lent at
      length `k`, the two disjoint, so none is lost and none duplicated. */
  lemma Conservation<T>(p: Pool<T>, k: nat)
    requires Inv(p)
    ensures MadeAt(p, k) == Elems(Bucket(p, k)) + LentAt(p, k)
    ensures Elems(Bucket(p, k)) !! LentAt(p, k)
    ensures |MadeAt(p, k)| == |Bucket(p, k)| + |LentAt(p, k)|
  {
    var free := Elems(Bucket(p, k));
    forall id | id in free
      ensures id in MadeAt(p, k) && id !in LentAt(p, k)
    {
      var i :| 0 <= i < |p.buckets[k]| && p.buckets[k][i] == id;
    }
    forall id | id in MadeAt(p, k) && id !in LentAt(p, k)
      ensures id in free
    {
      assert IsFree(p, id);
    }
    assert MadeAt(p, k) == free + LentAt(p, k);
    if k in p.buckets {
      DistinctCard(p.buckets[k]);
    }
  }

  /** Once every handle has been dropped, bucket `k` holds exactly the
      manufactured vectors that now have `k` elements, each once: none is
      lost and none duplicated. */
  lemma AllReturned<T>(p: Pool<T>, k: nat)
    requires Inv(p) && p.lent == {}
    ensures Elems(Bucket(p, k)) == MadeAt(p, k)
    ensures |Bucket(p, k)| == |MadeAt(p, k)|
  {
    Conservation(p, k);
    assert LentAt(p, k) == {};
  }

  // ---------------------------------------------------------------------
  // Last in, first out

  /** `returnToPool(vec, n)` pushes at the front, so the next
      `getFromPool(n)` hands out `vec` itself and the bucket is as before
      the return. */
  lemma ReturnThenGet<T>(p: Pool<T>, vec: VecId, n: nat)
    requires p.minPoolSize >= 1 && n in p.buckets
    ensures ReturnToPool(p, vec, n).Ok?
    ensures var (r, h) := GetFromPool(ReturnToPool(p, vec, n).value, n);
            h.buf.vec == vec && r.buckets == p.buckets
  {
    var q := ReturnToPool(p, vec, n).value;
    GetFromNonEmpty(q, n);
    var (r, h) := GetFromPool(q, n);
    assert r.buckets[n] == ([vec] + p.buckets[n])[1..] == p.buckets[n];
    assert r.buckets.Keys == p.buckets.Keys;
    assert forall k :: k in p.buckets ==> r.buckets[k] == p.buckets[k];
  }

  /** Popping the front of a bucket and releasing it unchanged puts it
      back where it was: the pool is as before. */
  lemma TakeFrontThenRelease<T>(f: Pool<T>, n: nat)
    requires n in f.buckets && |f.buckets[n]| > 0
    requires f.buckets[n][0] in f.heap.vecs && |f.heap.vecs[f.buckets[n][0]]| == n
    requires f.buckets[n][0] !in f.lent
    ensures var (q, h) := TakeFront(f, n);
            h.buf.vec in q.heap.vecs && Release(q, h) == Ok(f)
  {
    var (q, h) := TakeFront(f, n);
    var r := Release(q, h).value;
    assert r.buckets[n] == [f.buckets[n][0]] + f.buckets[n][1..] == f.buckets[n];
    assert r.buckets == f.buckets;
    assert r.lent == f.lent;
  }

  /** On a non-empty bucket, "get then release" leaves the pool exactly as
      it was. */
  lemma GetThenReleaseRestores<T>(p: Pool<T>, n: nat)
    requires Inv(p) && p.minPoolSize >= 1 && n in p.buckets && |p.buckets[n]| > 0
    ensures var (q, h) := GetFromPool(p, n);
            h.buf.vec in q.heap.vecs && Release(q, h) == Ok(p)
  {
    assert p.buckets[n][0] !in p.lent;
    TakeFrontThenRelease(p, n);
  }

  /** On an absent or empty bucket, "get then release" amounts to one
      `fillPool(n)`: the manufactured batch stays in the bucket, in order. */
  lemma GetThenReleaseFills<T>(p: Pool<T>, n: nat)
    requires Inv(p) && p.minPoolSize >= 1 && |Bucket(p, n)| == 0
    ensures var (q, h) := GetFromPool(p, n);
            h.buf.vec in q.heap.vecs && Release(q, h) == Ok(FillPool(p, n))
  {
    GetFromEmptyTakesFromFill(p, n);
    FillPoolSpec(p, n);
    var f := FillPool(p, n);
    var vec := p.heap.next;
    assert f.buckets[n][0] == vec;
    assert vec in f.heap.vecs && f.heap.vecs[vec] == Filled(n, p.heap.init);
    assert vec !in p.lent;
    TakeFrontThenRelease(f, n);
  }

  /** The pool `getFromPool(n)` pops from: refilled first when bucket `n`
      is absent or empty. */
  function Refilled<T>(p: Pool<T>, n: nat): Pool<T>
  {
    if |Bucket(p, n)| > 0 then p else FillPool(p, n)
  }

  /** One use of a buffer: obtain it, store `x` at index `i`, drop it. The
      pool ends as `getFromPool`'s refill check left it, except that the
      element written stays in the vector, which is back at the front of
      its bucket. */
  lemma UseOnce<T>(p: Pool<T>, n: nat, i: nat, x: T)
    requires Inv(p) && p.minPoolSize >= 1 && i < n
    ensures var (q, h) := GetFromPool(p, n);
            && h.buf.vec in q.heap.vecs && i < |q.heap.vecs[h.buf.vec]|
            && var r := Release(WriteThrough(q, h, i, x), h);
            && var f := Refilled(p, n);
            && r.Ok? && Inv(r.value)
            && h.buf.vec == f.buckets[n][0]
            && r.value.buckets == f.buckets
            && r.value.made == f.made && r.value.lent == f.lent
            && r.value.heap.next == f.heap.next && r.value.heap.init == f.heap.init
            && r.value.minPoolSize == f.minPoolSize
            && r.value.heap.vecs == f.heap.vecs[h.buf.vec := q.heap.vecs[h.buf.vec][i := x]]
  {
    var (q, h) := GetFromPool(p, n);
    GetFromPoolInv(p, n);
    var q1 := WriteThrough(q, h, i, x);
    WriteThroughInv(q, h, i, x);
    ReleaseInv(q1, h);
    var f := Refilled(p, n);
    if |Bucket(p, n)| > 0 {
      GetThenReleaseRestores(p, n);
    } else {
      GetThenReleaseFills(p, n);
    }
    assert Release(q, h) == Ok(f);
    var r := Release(q1, h).value;
    assert r.buckets == f.buckets;
  }

  /** Storage is not cleared on return: whatever a holder wrote is what the
      next holder of the same vector reads. */
  lemma ReuseSeesOldContents<T>(p: Pool<T>, n: nat, i: nat, x: T)
    requires Inv(p) && p.minPoolSize >= 1 && i < n
    ensures var (q, h) := GetFromPool(p, n);
            && h.buf.vec in q.heap.vecs && i < |q.heap.vecs[h.buf.vec]|
            && var q1 := WriteThrough(q, h, i, x);
            && Release(q1, h).Ok?
            && var (q2, h2) := GetFromPool(Release(q1, h).value, n);
            && h2.buf.vec == h.buf.vec
            && h2.buf.vec in q2.heap.vecs && i < |q2.heap.vecs[h2.buf.vec]|
            && q2.heap.vecs[h2.buf.vec][i] == x
  {
    var (q, h) := GetFromPool(p, n);
    GetFromPoolInv(p, n);
    var q1 := WriteThrough(q, h, i, x);
    WriteThroughInv(q, h, i, x);
    ReleaseInv(q1, h);
    var q2 := Release(q1, h).value;
    GetFromNonEmpty(q2, n);
    GetFromPoolInv(q2, n);
  }

  // ---------------------------------------------------------------------
  // The return-failure path

  /** A handle whose vector was not resized is always taken back. */
  lemma ReleaseAfterGetSucceeds<T>(p: Pool<T>, n: nat)
    requires Inv(p) && p.minPoolSize >= 1
    ensures var (q, h) := GetFromPool(p, n);
            h.buf.vec in q.heap.vecs && Release(q, h).Ok?
  {
    GetFromPoolInv(p, n);
  }

  /** `returnToPool` throws only for a length that was never requested:
      after a caller resizes its vector to such a length through
      `getVec()`, releasing the handle reports `CouldNotReturn(len)` and
      yields no pool. */
  lemma ResizeToUnrequestedLengthFails<T>(p: Pool<T>, n: nat, len: nat)
    requires Inv(p) && p.minPoolSize >= 1 && len != n && len !in p.buckets
    ensures var (q, h) := GetFromPool(p, n);
            && h.buf.vec in q.heap.vecs
            && var q1 := ResizeThrough(q, h, len);
            && Release(q1, h) == Err(CouldNotReturn(len))
            && len !in q1.buckets
  {
    GetFromPoolInv(p, n);
  }
}

=== FILE: exp_alloc.dfy ===
/**
 * Model of the bookkeeping of ExpAlloc<T> (test/allocator_exp.cxx), an
 * experimental std::allocator that keeps one FIFO queue of free addresses
 * per requested size: `allocate` pops at the front, `deallocate` pushes at
 * the back, and an empty queue is refilled with 5 addresses carved from one
 * fresh block.
 *
 * Addresses are abstract numbers: the block `new` returns is a parameter
 * `base`, and entry `b` of a refill of size `s` is `base + b * s`.
 */
module ExpAllocModel {

  type Addr = nat

  /** The allocator's state: `buffer_pool`, a queue of free addresses per
      size. */
  datatype ExpAlloc = ExpAlloc(queues: map<nat, seq<Addr>>)

  /** The queue for size `n`, or an empty one if none is installed. */
  function Queue(a: ExpAlloc, n: nat): seq<Addr>
  {
    if n in a.queues then a.queues[n] else []
  }

  /** `ExpAlloc()`: no queues. */
  function Create(): (a: ExpAlloc)
    ensures a.queues == map[]
  {
    ExpAlloc(map[])
  }

  /** Every queue other than `n` is present in `r` with the same contents. */
  ghost predicate OthersUnchanged(a: ExpAlloc, r: ExpAlloc, n: nat) {
    forall k :: k in a.queues && k != n ==> k in r.queues && r.queues[k] == a.queues[k]
  }

  /** `count` addresses `base, base + s, base + 2s, …`. */
  function Strided(base: Addr, s: nat, count: nat): (r: seq<Addr>)
    ensures |r| == count
    ensures forall b :: 0 <= b < count ==> r[b] == base + b * s
  {
    seq(count, b => base + b * s)
  }

  /** The loop of `initBufferPool` from the iteration where `abuf` is the
      next address and `count` iterations remain: push `abuf` at the back,
      then advance it by `s`. */
  function PushStrided(q: seq<Addr>, abuf: Addr, s: nat, count: nat): (r: seq<Addr>)
    decreases count
    ensures |r| == |q| + count && q <= r
  {
    if count == 0 then q else PushStrided(q + [abuf], abuf + s, s, count - 1)
  }

  /** `(k - 1) * s + s == k * s`, the step the offsets advance by. */
  lemma MulStep(k: nat, s: nat)
    requires k > 0
    ensures (k - 1) * s + s == k * s
  {
  }

  /** The loop appends the strided addresses, in order, at the back. */
  lemma {:induction false} PushStridedAppends(q: seq<Addr>, abuf: Addr, s: nat, count: nat)
    ensures PushStrided(q, abuf, s, count) == q + Strided(abuf, s, count)
    decreases count
  {
    if count > 0 {
      PushStridedAppends(q + [abuf], abuf + s, s, count - 1);
      var tail := Strided(abuf + s, s, count - 1);
      var all := Strided(abuf, s, count);
      forall b | 1 <= b < count
        ensures all[b] == tail[b - 1]
      {
        MulStep(b, s);
      }
      assert [abuf] + tail == all;
    }
  }

  /** `initBufferPool(s, num)`: pushes `num` addresses of one block at the
      back of queue `s`; a non-positive `num` runs the loop zero times. The
      queue must exist: the code dereferences `buffer_pool[s]`. */
  function InitBufferPool(a: ExpAlloc, s: nat, num: int, base: Addr): (r: ExpAlloc)
    requires s in a.queues
    ensures r.queues.Keys == a.queues.Keys && OthersUnchanged(a, r, s)
  {
    a.(queues := a.queues[s := PushStrided(a.queues[s], base, s, if num > 0 then num else 0)])
  }

  /** `initBufferPool(s, num)` adds exactly `max(num, 0)` entries at offsets
      `0, s, 2s, …` from `base`, after the entries already queued. */
  lemma InitBufferPoolSpec(a: ExpAlloc, s: nat, num: int, base: Addr)
    requires s in a.queues
    ensures var r := InitBufferPool(a, s, num, base);
            && r.queues[s] == a.queues[s] + Strided(base, s, if num > 0 then num else 0)
            && |r.queues[s]| == |a.queues[s]| + (if num > 0 then num else 0)
  {
    PushStridedAppends(a.queues[s], base, s, if num > 0 then num else 0);
  }

  /** The entries of one refill are pairwise distinct when the size is
      positive, and increase with their position. */
  lemma StridedDistinct(base: Addr, s: nat, count: nat)
    requires s > 0
    ensures forall i, j :: 0 <= i < j < count ==> Strided(base, s, count)[i] < Strided(base, s, count)[j]
  {
    var r := Strided(base, s, count);
    forall i, j | 0 <= i < j < count
      ensures r[i] < r[j]
    {
      MulMonotone(i, j, s);
    }
  }

  /** `i * s < j * s` for `i < j` and positive `s`. */
  lemma {:induction false} MulMonotone(i: nat, j: nat, s: nat)
    requires i < j && s > 0
    ensures i * s < j * s
    decreases j - i
  {
    MulStep(j, s);
    if i < j - 1 {
      MulMonotone(i, j - 1, s);
    }
  }

  /** The number of entries a refill adds. */
  const RefillCount: int := 5

  /** `allocate(n)`: installs an empty queue for a size never seen, refills
      an empty queue with `initBufferPool(n, 5)` from the block at `base`,
      then pops and returns the FRONT entry. Only queue `n` changes. */
  function Allocate(a: ExpAlloc, n: nat, base: Addr): (r: (ExpAlloc, Addr))
    ensures r.0.queues.Keys == a.queues.Keys + {n} && OthersUnchanged(a, r.0, n)
  {
    var a1 := if n in a.queues then a else a.(queues := a.queues[n := []]);
    var a2 := if |a1.queues[n]| == 0 then InitBufferPool(a1, n, RefillCount, base) else a1;
    InitBufferPoolSpec(a1, n, RefillCount, base);
    (a2.(queues := a2.queues[n := a2.queues[n][1..]]), a2.queues[n][0])
  }

  /** `deallocate(p, n)`: pushes `p` at the BACK of queue `n`. The queue must
      exist: for a size never allocated the code dereferences a null queue
      pointer. Only queue `n` changes. */
  function Deallocate(a: ExpAlloc, p: Addr, n: nat): (r: ExpAlloc)
    requires n in a.queues
    ensures r.queues.Keys == a.queues.Keys && OthersUnchanged(a, r, n)
    ensures r.queues[n] == a.queues[n] + [p]
  {
    a.(queues := a.queues[n := a.queues[n] + [p]])
  }

  /** `allocate(n)` on an absent or empty queue: five entries of the block
      at `base` are queued, the first is returned and four remain. */
  lemma AllocateFromEmpty(a: ExpAlloc, n: nat, base: Addr)
    requires |Queue(a, n)| == 0
    ensures var (r, p) := Allocate(a, n, base);
            && p == base
            && r.queues[n] == Strided(base + n, n, 4)
            && |r.queues[n]| == 4
  {
    var a1 := if n in a.queues then a else a.(queues := a.queues[n := []]);
    InitBufferPoolSpec(a1, n, RefillCount, base);
    var q := Strided(base, n, 5);
    var tail := Strided(base + n, n, 4);
    forall b | 0 <= b < 4
      ensures q[b + 1] == tail[b]
    {
      MulStep(b + 1, n);
    }
    assert q[1..] == tail;
  }

  /** `allocate(n)` on a non-empty queue returns its front, the OLDEST
      entry, and shrinks it by one; nothing is refilled. */
  lemma AllocateFromNonEmpty(a: ExpAlloc, n: nat, base: Addr)
    requires n in a.queues && |a.queues[n]| > 0
    ensures var (r, p) := Allocate(a, n, base);
            && p == a.queues[n][0]
            && r.queues[n] == a.queues[n][1..]
  {
  }

  /** `count` successive `allocate(n)` calls, all offered the block at
      `base` should a refill happen: the state afterwards and the addresses
      returned, in order. */
  function AllocateMany(a: ExpAlloc, n: nat, base: Addr, count: nat): (r: (ExpAlloc, seq<Addr>))
    ensures |r.1| == count
    decreases count
  {
    if count == 0 then (a, [])
    else
      var (a1, p) := Allocate(a, n, base);
      var (a2, ps) := AllocateMany(a1, n, base, count - 1);
      (a2, [p] + ps)
  }

  /** Draining: as long as the queue holds at least `count` entries,
      `count` allocations return exactly its first `count` entries, oldest
      first, and leave the rest. */
  lemma {:induction false} AllocateManyDrains(a: ExpAlloc, n: nat, base: Addr, count: nat)
    requires n in a.queues && count <= |a.queues[n]|
    ensures var (r, ps) := AllocateMany(a, n, base, count);
            && ps == a.queues[n][..count]
            && n in r.queues && r.queues[n] == a.queues[n][count..]
    decreases count
  {
    if count > 0 {
      AllocateFromNonEmpty(a, n, base);
      var (a1, p) := Allocate(a, n, base);
      AllocateManyDrains(a1, n, base, count - 1);
      var q := a.queues[n];
      assert a1.queues[n][..count - 1] == q[1..count];
      assert a1.queues[n][count - 1..] == q[count..];
      assert [q[0]] + q[1..count] == q[..count];
    }
  }

  /** FIFO reuse: an address given back to a queue already holding `k`
      entries is handed out again only after those `k`, by the `k + 1`-th
      allocation. */
  lemma DeallocateIsFifo(a: ExpAlloc, p: Addr, n: nat, base: Addr)
    requires n in a.queues
    ensures var k := |a.queues[n]|;
            var (r, ps) := AllocateMany(Deallocate(a, p, n), n, base, k + 1);
            && ps == a.queues[n] + [p]
            && n in r.queues && r.queues[n] == []
  {
    var k := |a.queues[n]|;
    var d := Deallocate(a, p, n);
    AllocateManyDrains(d, n, base, k + 1);
    assert d.queues[n][..k + 1] == a.queues[n] + [p];
  }

  /** On a non-empty queue, allocating and giving the address straight back
      ROTATES the queue by one: the front moves to the back. */
  lemma AllocateThenDeallocateRotates(a: ExpAlloc, n: nat, base: Addr)
    requires n in a.queues && |a.queues[n]| > 0
    ensures var (r, p) := Allocate(a, n, base);
            && n in r.queues
            && Deallocate(r, p, n).queues[n] == a.queues[n][1..] + [a.queues[n][0]]
  {
    AllocateFromNonEmpty(a, n, base);
  }

  /** The rotation does not restore the queue as soon as its first two
      entries differ, unlike the last-in, first-out buffer pool. */
  lemma RotationChangesOrder(a: ExpAlloc, n: nat, base: Addr)
    requires n in a.queues && |a.queues[n]| >= 2 && a.queues[n][0] != a.queues[n][1]
    ensures var (r, p) := Allocate(a, n, base);
            && n in r.queues
            && Deallocate(r, p, n).queues[n] != a.queues[n]
  {
    AllocateThenDeallocateRotates(a, n, base);
    var (r, p) := Allocate(a, n, base);
    assert Deallocate(r, p, n).queues[n][0] == a.queues[n][1];
  }

  /** `operator==`: any two allocators compare equal. */
  function Equal(a: ExpAlloc, b: ExpAlloc): (r: bool)
    ensures r
  {
    true
  }

  /** `operator!=`: no two allocators compare unequal. */
  function NotEqual(a: ExpAlloc, b: ExpAlloc): (r: bool)
    ensures !r
  {
    false
  }

  /** Equality says nothing about the state: two allocators compare equal,
      and not unequal, even when one has a queue for a size the other has
      never seen, so an address from one cannot be given back to the other. */
  lemma EqualityIgnoresState(n: nat, base: Addr)
    ensures var (a, p) := Allocate(Create(), n, base);
            && Equal(a, Create()) && !NotEqual(a, Create())
            && n in a.queues && n !in Create().queues
  {
  }
}

=== FILE: pool_scenarios.dfy ===
/**
 * Two runs of the buffer pool, end to end: the loop of test/BufferTest.cxx,
 * where each handle is dropped at the end of its iteration, and a run that
 * keeps every handle it obtains.
 */
module PoolScenarios {
  import opened Buffers
  import opened BufferPool
  import opened BufferPoolProps

  /** The ids below `hi`, as a membership test. */
  ghost predicate IdsBelow(s: set<VecId>, hi: nat) {
    forall id: VecId :: id in s <==> id < hi
  }

  /** The pool of test/BufferTest.cxx after `i` iterations of its loop. */
  ghost predicate AfterTestIterations(p: Pool<int>, i: nat) {
    && Inv(p) && p.minPoolSize == 5 && p.lent == {}
    && (i == 0 ==> p.buckets == map[] && p.heap.next == 0 && p.made == {})
    && (i > 0 ==> && p.buckets == map[3 := [0, 1, 2, 3, 4]]
                  && p.heap.next == 5 && IdsBelow(p.made, 5)
                  && 0 in p.heap.vecs && |p.heap.vecs[0]| == 3
                  && p.heap.vecs[0][2] == i - 1)
  }

  /** `BufferPool<int> pool(5)` is the state before the loop. */
  lemma TestStart()
    ensures AfterTestIterations(Create(5, 0), 0)
  {
    CreateInv(5, 0);
  }

  /** The first iteration of the loop in test/BufferTest.cxx fills bucket 3
      with vectors 0 to 4, hands out vector 0 and takes it back at the front. */
  lemma FirstTestIteration(p: Pool<int>)
    requires AfterTestIterations(p, 0)
    ensures var (q, h) := GetFromPool(p, 3);
            && h.buf.vec == 0 && 0 in q.heap.vecs && |q.heap.vecs[0]| == 3
            && var r := Release(WriteThrough(q, h, 2, 0), h);
            && r.Ok? && AfterTestIterations(r.value, 1)
  {
    UseOnce(p, 3, 2, 0);
    FirstFill(p);
  }

  /** The refill of the first request: five vectors of length 3. */
  lemma FirstFill(p: Pool<int>)
    requires AfterTestIterations(p, 0)
    ensures var f := Refilled(p, 3);
            && f.buckets == map[3 := [0, 1, 2, 3, 4]] && f.heap.next == 5
            && IdsBelow(f.made, 5) && f.lent == {}
            && 0 in f.heap.vecs && |f.heap.vecs[0]| == 3
  {
    var f := FillPool(p, 3);
    FillPoolSpec(p, 3);
    assert Refilled(p, 3) == f;
    assert IdsFrom(0, 5) == [0, 1, 2, 3, 4];
    assert f.buckets[3] == [0, 1, 2, 3, 4];
    assert f.buckets == map[3 := [0, 1, 2, 3, 4]];
  }

  /** Every later iteration hands out vector 0 again and restores the
      bucket; only the element written changes. */
  lemma LaterTestIteration(p: Pool<int>, i: nat)
    requires i > 0 && AfterTestIterations(p, i)
    ensures var (q, h) := GetFromPool(p, 3);
            && h.buf.vec == 0 && 0 in q.heap.vecs && |q.heap.vecs[0]| == 3
            && var r := Release(WriteThrough(q, h, 2, i), h);
            && r.Ok? && AfterTestIterations(r.value, i + 1)
  {
    UseOnce(p, 3, 2, i);
    assert Refilled(p, 3) == p;
  }

  /** One iteration of the loop in test/BufferTest.cxx. */
  lemma TestIteration(p: Pool<int>, i: nat)
    requires AfterTestIterations(p, i)
    ensures var (q, h) := GetFromPool(p, 3);
            && h.buf.vec == 0 && 0 in q.heap.vecs && |q.heap.vecs[0]| == 3
            && var r := Release(WriteThrough(q, h, 2, i), h);
            && r.Ok? && AfterTestIterations(r.value, i + 1)
  {
    if i == 0 {
      FirstTestIteration(p);
    } else {
      LaterTestIteration(p, i);
    }
  }

  /** The body of the loop in test/BufferTest.cxx: obtain a length-3
      buffer, store `i` at index 2, drop the handle. Returns the vector
      that was handed out. */
  method TestStep(p: Pool<int>, i: nat) returns (p': Pool<int>, vec: VecId)
    requires AfterTestIterations(p, i)
    ensures vec == 0 && AfterTestIterations(p', i + 1)
  {
    TestIteration(p, i);
    var (q, h) := GetFromPool(p, 3);
    var q1 := WriteThrough(q, h, 2, i);
    p' := Release(q1, h).value;
    vec := h.buf.vec;
  }

  /** test/BufferTest.cxx: a pool of `int` vectors with `min_pool_size` 5;
      in iteration `i` obtain a length-3 buffer, store `i` at index 2 and drop
      the handle. Exactly one fill happens (5 vectors manufactured), the same
      vector 0 is handed out every time, it still holds the last value
      written, and bucket 3 ends holding all 5 vectors. */
  method BufferTestLoop(count: nat) returns (p: Pool<int>, issued: seq<VecId>)
    ensures |issued| == count && forall k :: 0 <= k < count ==> issued[k] == 0
    ensures Inv(p) && p.lent == {}
    ensures count == 0 ==> p.buckets == map[]
    ensures count > 0 ==> && p.buckets == map[3 := [0, 1, 2, 3, 4]]
                          && p.heap.next == 5 && IdsBelow(p.made, 5)
                          && 0 in p.heap.vecs && |p.heap.vecs[0]| == 3
                          && p.heap.vecs[0][2] == count - 1
  {
    p := Create(5, 0);
    issued := [];
    var i := 0;
    while i < count
      invariant 0 <= i <= count
      invariant |issued| == i && forall k :: 0 <= k < i ==> issued[k] == 0
      invariant AfterTestIterations(p, i)
    {
      var vec;
      p, vec := TestStep(p, i);
      issued := issued + [vec];
      i := i + 1;
    }
  }

  /** The vectors manufactured by `fills` refills of `m` each, that is
      `fills * m`, counted one refill at a time. */
  function Batches(fills: nat, m: nat): nat
  {
    if fills == 0 then 0 else Batches(fills - 1, m) + m
  }

  /** The pool after `i` requests for length `n`, none released, starting
      from an empty pool with `min_pool_size` `m` and refilled `fills`
      times: vectors `0 .. next - 1` all exist with length `n`, the first
      `i` are lent and the rest wait in bucket `n` in order. */
  ghost predicate HeldAfter<T>(p: Pool<T>, m: nat, n: nat, i: nat, fills: nat) {
    HeldCounts(p, m, i, fills) && HeldSets(p, i) && HeldLengths(p, n) && HeldBuckets(p, n, i)
  }

  /** `fills` batches of `m` were manufactured, and fewer than `m` of them
      are still unused. */
  ghost predicate HeldCounts<T>(p: Pool<T>, m: nat, i: nat, fills: nat) {
    && p.minPoolSize == m
    && p.heap.next == Batches(fills, m) && i <= p.heap.next
    && (i == 0 ==> p.heap.next == 0)
    && (i > 0 ==> p.heap.next < i + m)
  }

  /** The first `i` vectors are lent; every vector allocated was
      manufactured by the pool. */
  ghost predicate HeldSets<T>(p: Pool<T>, i: nat) {
    && IdsBelow(p.lent, i) && IdsBelow(p.made, p.heap.next)
    && IdsBelow(p.heap.vecs.Keys, p.heap.next)
  }

  ghost predicate HeldLengths<T>(p: Pool<T>, n: nat) {
    forall id: VecId :: id < p.heap.next ==> id in p.heap.vecs && |p.heap.vecs[id]| == n
  }

  /** The vectors not lent wait in bucket `n`, oldest first. */
  ghost predicate HeldBuckets<T>(p: Pool<T>, n: nat, i: nat) {
    && (i == 0 ==> p.buckets == map[])
    && (i > 0 ==> p.buckets.Keys == {n} && i <= p.heap.next
                  && p.buckets[n] == IdsFrom(i, p.heap.next - i))
  }

  /** A pool of that shape satisfies the pool invariant. */
  lemma HeldAfterInv<T>(p: Pool<T>, m: nat, n: nat, i: nat, fills: nat)
    requires HeldAfter(p, m, n, i, fills)
    ensures Inv(p)
  {
    forall id | id in p.made && id !in p.lent
      ensures IsFree(p, id)
    {
      assert p.buckets[n][id - i] == id;
    }
  }

  /** The state change of a request that finds the bucket empty, as
      `GetFromEmpty` describes it: vector `vec`, the first of a batch of
      `m` fresh ones, is handed out and the rest go to bucket `n`. */
  ghost predicate RefillMove<T>(p: Pool<T>, q: Pool<T>, vec: VecId, m: nat, n: nat) {
    && m >= 1 && q.minPoolSize == m && q.buckets.Keys == p.buckets.Keys + {n} && q.lent == p.lent + {vec}
    && vec == p.heap.next && q.heap.next == p.heap.next + m
    && q.buckets[n] == IdsFrom(p.heap.next + 1, m - 1)
    && Grew(p.heap, q.heap, n) && AddsRange(p.made, q.made, p.heap.next, q.heap.next)
  }

  /** An empty bucket means every vector manufactured so far is lent. */
  lemma EmptyMeansAllLent<T>(p: Pool<T>, m: nat, n: nat, i: nat, fills: nat)
    requires HeldAfter(p, m, n, i, fills) && |Bucket(p, n)| == 0
    ensures p.heap.next == i
  {
    if i > 0 {
      assert |p.buckets[n]| == p.heap.next - i;
    }
  }

  lemma RefillCounts<T>(p: Pool<T>, q: Pool<T>, vec: VecId, m: nat, n: nat, i: nat, fills: nat)
    requires m >= 1 && HeldCounts(p, m, i, fills) && p.heap.next == i && RefillMove(p, q, vec, m, n)
    ensures HeldCounts(q, m, i + 1, fills + 1)
  {
  }

  lemma RefillSets<T>(p: Pool<T>, q: Pool<T>, vec: VecId, m: nat, n: nat, i: nat)
    requires HeldSets(p, i) && p.heap.next == i && RefillMove(p, q, vec, m, n)
    ensures HeldSets(q, i + 1)
  {
  }

  lemma RefillLengths<T>(p: Pool<T>, q: Pool<T>, vec: VecId, m: nat, n: nat)
    requires HeldLengths(p, n) && RefillMove(p, q, vec, m, n)
    ensures HeldLengths(q, n)
  {
  }

  lemma RefillBuckets<T>(p: Pool<T>, q: Pool<T>, vec: VecId, m: nat, n: nat, i: nat)
    requires m >= 1 && HeldBuckets(p, n, i) && p.heap.next == i && RefillMove(p, q, vec, m, n)
    ensures HeldBuckets(q, n, i + 1)
  {
    assert q.buckets.Keys == {n};
  }

  /** The refill keeps the shape: every earlier vector is lent, so a batch
      of `m` is manufactured and the first of it handed out. */
  lemma RefillKeepsShape<T>(p: Pool<T>, q: Pool<T>, vec: VecId, m: nat, n: nat, i: nat, fills: nat)
    requires m >= 1 && HeldAfter(p, m, n, i, fills) && |Bucket(p, n)| == 0
    requires RefillMove(p, q, vec, m, n)
    ensures vec == i && HeldAfter(q, m, n, i + 1, fills + 1)
  {
    EmptyMeansAllLent(p, m, n, i, fills);
    RefillCounts(p, q, vec, m, n, i, fills);
    RefillSets(p, q, vec, m, n, i);
    RefillLengths(p, q, vec, m, n);
    RefillBuckets(p, q, vec, m, n, i);
  }

  /** A request that finds the bucket empty. */
  lemma HoldStepRefill<T>(p: Pool<T>, m: nat, n: nat, i: nat, fills: nat)
    requires m >= 1 && HeldAfter(p, m, n, i, fills) && |Bucket(p, n)| == 0
    ensures var (q, h) := GetFromPool(p, n);
            h.buf.vec == i && HeldAfter(q, m, n, i + 1, fills + 1)
  {
    var (q, h) := GetFromPool(p, n);
    GetFromEmpty(p, n);
    assert RefillMove(p, q, h.buf.vec, m, n);
    RefillKeepsShape(p, q, h.buf.vec, m, n, i, fills);
  }

  /** The state change of a request that finds the bucket non-empty, as
      `GetFromNonEmpty` describes it: the front `vec` is handed out and
      nothing is manufactured. */
  ghost predicate ReuseMove<T>(p: Pool<T>, q: Pool<T>, vec: VecId, m: nat, n: nat) {
    && n in p.buckets && |p.buckets[n]| > 0
    && q.minPoolSize == m && q.buckets.Keys == p.buckets.Keys + {n} && q.lent == p.lent + {vec}
    && vec == p.buckets[n][0] && q.buckets[n] == p.buckets[n][1..]
    && q.heap == p.heap && q.made == p.made
  }

  /** A non-empty bucket holds the vectors from `i` on, so `i` is not yet
      lent. */
  lemma NonEmptyMeansSomeFree<T>(p: Pool<T>, m: nat, n: nat, i: nat, fills: nat)
    requires HeldAfter(p, m, n, i, fills) && |Bucket(p, n)| > 0
    ensures i > 0 && i < p.heap.next && p.buckets[n][0] == i
    ensures p.buckets[n][1..] == IdsFrom(i + 1, p.heap.next - (i + 1))
  {
    IdsFromTail(i, p.heap.next - i);
  }

  lemma ReuseCounts<T>(p: Pool<T>, q: Pool<T>, vec: VecId, m: nat, n: nat, i: nat, fills: nat)
    requires HeldCounts(p, m, i, fills) && i < p.heap.next && ReuseMove(p, q, vec, m, n)
    ensures HeldCounts(q, m, i + 1, fills)
  {
  }

  lemma ReuseSets<T>(p: Pool<T>, q: Pool<T>, vec: VecId, m: nat, n: nat, i: nat)
    requires HeldSets(p, i) && vec == i && ReuseMove(p, q, vec, m, n)
    ensures HeldSets(q, i + 1)
  {
  }

  lemma ReuseBuckets<T>(p: Pool<T>, q: Pool<T>, vec: VecId, m: nat, n: nat, i: nat)
    requires HeldBuckets(p, n, i) && i > 0 && i < p.heap.next && ReuseMove(p, q, vec, m, n)
    requires p.buckets[n][1..] == IdsFrom(i + 1, p.heap.next - (i + 1))
    ensures HeldBuckets(q, n, i + 1)
  {
  }

  /** The reuse keeps the shape: the front handed out is the oldest vector
      not yet lent. */
  lemma ReuseKeepsShape<T>(p: Pool<T>, q: Pool<T>, vec: VecId, m: nat, n: nat, i: nat, fills: nat)
    requires m >= 1 && HeldAfter(p, m, n, i, fills) && |Bucket(p, n)| > 0
    requires ReuseMove(p, q, vec, m, n)
    ensures vec == i && HeldAfter(q, m, n, i + 1, fills)
  {
    NonEmptyMeansSomeFree(p, m, n, i, fills);
    ReuseCounts(p, q, vec, m, n, i, fills);
    ReuseSets(p, q, vec, m, n, i);
    ReuseBuckets(p, q, vec, m, n, i);
  }

  /** A request that finds the bucket non-empty. */
  lemma HoldStepReuse<T>(p: Pool<T>, m: nat, n: nat, i: nat, fills: nat)
    requires m >= 1 && HeldAfter(p, m, n, i, fills) && |Bucket(p, n)| > 0
    ensures var (q, h) := GetFromPool(p, n);
            h.buf.vec == i && HeldAfter(q, m, n, i + 1, fills)
  {
    var (q, h) := GetFromPool(p, n);
    GetFromNonEmpty(p, n);
    assert ReuseMove(p, q, h.buf.vec, m, n);
    ReuseKeepsShape(p, q, h.buf.vec, m, n, i, fills);
  }

  /** Any request: the handle is vector `i`, and a refill happens exactly
      when the bucket is empty. */
  lemma HoldStep<T>(p: Pool<T>, m: nat, n: nat, i: nat, fills: nat)
    requires m >= 1 && HeldAfter(p, m, n, i, fills)
    ensures var (q, h) := GetFromPool(p, n);
            && h.buf.vec == i
            && HeldAfter(q, m, n, i + 1, if |Bucket(p, n)| == 0 then fills + 1 else fills)
  {
    if |Bucket(p, n)| == 0 {
      HoldStepRefill(p, m, n, i, fills);
    } else {
      HoldStepReuse(p, m, n, i, fills);
    }
  }

  /** One `getFromPool(n)` of a run that releases nothing: the handle is
      vector `i`, and `fills` grows exactly when the bucket was empty. */
  method Request<T>(p: Pool<T>, m: nat, n: nat, i: nat, fills: nat)
    returns (q: Pool<T>, h: PoolBuffer, fills': nat)
    requires m >= 1 && HeldAfter(p, m, n, i, fills)
    ensures fills' == (if |Bucket(p, n)| == 0 then fills + 1 else fills)
    ensures h.buf.vec == i && HeldAfter(q, m, n, i + 1, fills')
  {
    HoldStep(p, m, n, i, fills);
    q, h := GetFromPool(p, n).0, GetFromPool(p, n).1;
    fills' := if |Bucket(p, n)| == 0 then fills + 1 else fills;
  }

  /** What the state after `count` requests means. */
  lemma HeldAfterMeans<T>(p: Pool<T>, m: nat, n: nat, count: nat, fills: nat)
    requires m >= 1 && HeldAfter(p, m, n, count, fills)
    ensures Inv(p) && IdsBelow(p.lent, count) && IdsBelow(p.made, p.heap.next)
    ensures forall k: VecId :: k < count ==> k in p.heap.vecs && |p.heap.vecs[k]| == n
    ensures p.heap.next == Batches(fills, m) && count <= p.heap.next
    ensures count > 0 ==> fills > 0 && Batches(fills - 1, m) < count && p.heap.next < count + m
    ensures count > 0 ==> p.buckets.Keys == {n} && p.buckets[n] == IdsFrom(count, p.heap.next - count)
  {
    HeldAfterInv(p, m, n, count, fills);
  }

  /** Obtains `count` handles of length `n` from a fresh pool with
      `min_pool_size` `m`, releasing none. Vectors are handed out in the
      order they were manufactured; a refill happens exactly when the
      bucket is observed empty, so the number manufactured is the least
      multiple of `m` that is at least `count`, and the rest are idle in the
      bucket. `fills` counts the refills. */
  method HoldWithoutRelease<T>(m: nat, n: nat, init: T, count: nat)
    returns (p: Pool<T>, held: seq<PoolBuffer>, fills: nat)
    requires m >= 1
    ensures HeldAfter(p, m, n, count, fills)
    ensures |held| == count && forall k :: 0 <= k < count ==> held[k].buf.vec == k
  {
    p := Create(m, init);
    held := [];
    fills := 0;
    var i := 0;
    while i < count
      invariant 0 <= i <= count
      invariant HeldAfter(p, m, n, i, fills)
      invariant |held| == i && forall k :: 0 <= k < i ==> held[k].buf.vec == k
    {
      var h;
      p, h, fills := Request(p, m, n, i, fills);
      held := held + [h];
      i := i + 1;
    }
  }

  /** A pool with `min_pool_size` 5: eight requests for length 3 without
      discarding any cause two refills, so ten vectors are manufactured, eight are lent out and two are idle
      in the bucket. */
  method EightHeld() returns (p: Pool<int>, held: seq<PoolBuffer>, fills: nat)
    ensures |held| == 8 && Inv(p) && fills == 2
    ensures p.heap.next == 10 && IdsBelow(p.made, 10) && IdsBelow(p.lent, 8)
    ensures p.buckets == map[3 := [8, 9]]
  {
    p, held, fills := HoldWithoutRelease(5, 3, 0, 8);
    HeldAfterMeans(p, 5, 3, 8, fills);
    assert p.buckets[3] == [8, 9];
  }
}
